=== FILE: README.md ===
# docit Markdown renderer, modelled in Dafny

docit turns documentation comments into Markdown. This project models its
renderer, the part of `lib/docit.js` that takes parsed comment records and
builds the Markdown document. Each record has three parts:

- a kind: module, type, variable or method;
- free text;
- an ordered list of single-key tags.

Every renderer also takes the settings, a flat string-to-string map of options
that drives the rendering.

The model has these pieces:

- **Style language** (`Markdown`). `ApplyMarkdown` has three forms: an underline heading (`=`, `-`), an ATX heading (`#` to `######`), and wrap-style emphasis for any other token. An underline is as long as JavaScript's `length` of the text, which counts UTF-16 code units, so a character outside the Basic Multilingual Plane gets two rule characters. `StyleValue` styles a tag payload: a structured payload is first converted to `[object Object]`, and under `=` or `-` it gets no rule at all, because its `length` is undefined.
- **Tag lookup and privacy** (`Comments`). A first-match tag lookup and the privacy predicate, plus JavaScript's coercions for absent and structured values. Absent prints as `null`, a structured value as `[object Object]`, and an empty string counts as falsy. The lookup as the code writes it also reads the `constructor` property every tag object inherits; that is modelled separately and reported under Findings.
- **Settings** (`Config`). The built-in defaults, the simple-tag table, and the privacy gate.
- **Section renderers** (`Sections`, `Methods`). One per record kind: module, simple tags, variable and type (these thread the group-heading state), and method, which walks its tags in source order.
- **Document** (`Document`). A left fold over the records that threads the group-heading state and joins the non-empty fragments.
- **Scenarios** (`Scenarios`). Worked scenarios.

The source keeps three things as globals: the group-heading state (`currentCommentType`), the settings object, and the `lineStart` separator. The model passes each one explicitly:

- the state goes in and comes out of every renderer;
- the settings are an immutable parameter;
- the separator is a parameter of the tag walk.

`GetMarkdown` takes the initial group-heading state as a parameter. The source resets that state only when comments are extracted, never when Markdown is built.

Four choices where the model follows the code exactly:

- **Privacy gate.** It is the code's test, `includePrivate` exactly `"false"`. A looser reading, "anything other than `true`", would drop private comments under more values, but the code does not test that.
- **Settings.** Custom settings replace the defaults as a whole object; they are not merged into them. The model therefore takes one map. A missing option reads as the string `"undefined"`; this agrees with JavaScript only in the cases listed under Left out.
- **Missing names.** A variable or type record with no `variableName` or `class` tag renders the literal text `null` as its name, as JavaScript does when it concatenates a `null` lookup. There is no precondition requiring those tags.
- **Lookup results.** Tag lookups return `Option<TagValue>`. `None` stands for the source's `null`.

## Model

| member | source | states |
|---|---|---|
| Strings.Repeat | lib/docit.js:355-361 | the result is exactly `count` characters long and every character is the token `c` |
| Strings.Utf16Length | lib/docit.js:339 | a string is at least as many code units long as it has characters, and exactly as many when every character lies in the Basic Multilingual Plane |
| Strings.Lower | lib/docit.js:366 | lower-casing keeps the length and lower-cases each character in place |
| Markdown.Underline | lib/docit.js:337-340 | an underline heading is the text, a newline, then a rule made only of the token character with one character per UTF-16 code unit of the text |
| Markdown.ApplyMarkdown | lib/docit.js:334-353 | `=`/`-` give text, newline and a rule with one token character per UTF-16 code unit of the text; `#`..`######` give `token + " " + text + " " + token`; every other token wraps the text with no spaces |
| Markdown.ApplyMarkdownExamples | lib/docit.js:337-340 | `Foo` under `=` gets a three-character rule, and a single character outside the Basic Multilingual Plane gets a two-character rule |
| Markdown.UnstyleApply | lib/docit.js:334-353 | styling loses nothing: for every token the text is recovered from its styled form |
| Markdown.ApplyMarkdownInjective | lib/docit.js:334-353 | two different texts never style alike under the same token |
| Markdown.StructuredUnderlineHasNoRule | lib/docit.js:337-340 | under `=` or `-` a styled value is `[object Object]` and a bare newline exactly when the value is a structured payload, whose `length` is undefined; no string styles that way |
| Comments.TagValueOf | lib/docit.js:369-379 | the lookup is absent iff no tag carries the key as its own key; otherwise it is the value of the first tag that carries it |
| Comments.LookupAsWritten | lib/docit.js:369-379 | the lookup as written agrees with `TagValueOf` on every key except `constructor`; for `constructor` it is absent only for a comment with no tags, and finds the inherited `Object` function whenever the first tag has another key |
| Comments.ConstructorFoundOnClassOnlyComment | lib/docit.js:372-375 | for a comment whose only tag is `class: Foo`, the lookup as written finds `Object` under `constructor`, while `TagValueOf` finds nothing |
| Comments.LookupAppend | lib/docit.js:372-375 | first match wins over a concatenation: a match in the first part hides everything after it, otherwise the lookup continues in the second part |
| Comments.LaterTagsIgnored | lib/docit.js:372-375 | once a key is found, appending more tags (duplicates included) never changes its value |
| Comments.SwapPreservesLookup | lib/docit.js:369-379 | swapping two neighbouring tags with different keys changes no lookup |
| Comments.IsPrivate | lib/docit.js:363-367 | a comment is private iff some tag carries `private`, or the first `api` tag holds text that lower-cases to `private` |
| Config.DefaultsDropPrivate | lib/docit.js:25 | under the built-in defaults a comment is suppressed exactly when it is private |
| Sections.SimpleTagLine | lib/docit.js:183-187 | a simple tag's line is empty iff its first value is absent or the empty string; otherwise it is the styled label, a space, the first value and a newline, and nothing else |
| Sections.SimpleTagLineAsWritten | lib/docit.js:183-187 | the line as written is empty iff the lookup as written finds nothing truthy, and equals `SimpleTagLine` for every key other than `constructor` |
| Sections.ConstructorLineAsWritten | lib/docit.js:183-187 | when the first tag is not `constructor`, the constructor line as written is the label, a space and `function Object() { [native code] }`; the intended line is empty when no tag is `constructor` |
| Sections.ProcessSimpleTags | lib/docit.js:180-191 | the lines come in the fixed order author, constructor, deprecated, requires, see, version; the block is empty iff none of the six tags has a truthy value |
| Sections.SimpleTagsIgnoreTagOrder | lib/docit.js:180-191 | reordering neighbouring tags with different keys leaves the simple-tag block unchanged |
| Sections.ModuleComment | lib/docit.js:166-178 | a module fragment starts with the styled heading and a blank line, followed by the text paragraph only when the text is non-empty, then the simple tags; it is never empty. The heading is the truthy `module` tag, else the non-empty module name, else the `defaultModuleHeading` option |
| Sections.SimpleTagsSettingsAgree | lib/docit.js:185 | simple-tag lines depend on the settings only through the table's label and style options |
| Sections.ModuleIgnoresIncludePrivate | lib/docit.js:166-178 | changing `includePrivate` never changes a module fragment |
| Sections.NameLine | lib/docit.js:274-277 | the name line starts with the name (`null` when absent) and gains the private label iff the comment is private; it stays a structured payload only when the comment is not private and the name is structured, since appending the label makes it a string |
| Sections.VariableComment | lib/docit.js:264-283 | a suppressed variable gives nothing and keeps the state; otherwise the fragment starts with the group heading when the state is not Variable, followed by name line, blank line, text, and the state becomes Variable; the fragment is non-empty iff not suppressed |
| Sections.TypeComment | lib/docit.js:285-307 | a suppressed type gives nothing and keeps the state; otherwise the fragment starts with the group heading when the state is not Type, followed by name line, simple tags, blank line, text, and the state becomes Type; the fragment is non-empty iff not suppressed |
| Methods.ParamLine | lib/docit.js:309-316 | a param line starts with the list marker, the name and a space, ends with the comment, and holds the styled type and a space between them exactly when a type is present |
| Methods.OutLine | lib/docit.js:325-332 | a return/throws line is the comment, preceded by the styled type and a space exactly when a type is present |
| Methods.OutBlock | lib/docit.js:241-253 | every return or throws tag brings its own heading block, followed by its line and a newline, with nothing in between |
| Methods.TagBlock | lib/docit.js:221-254 | a tag adds text iff its key is known; an api block ends with the first api value and no newline; a param block is the param line and a newline, preceded by the Parameters heading only before the first param; returns and throws always start with their heading |
| Methods.ApiBlockContent | lib/docit.js:222-226 | an api block is the separator and styled api label, a space, then the first api value |
| Methods.ParamBlockContent | lib/docit.js:227-235 | every param block ends with its param line and a newline; the first param's block is exactly the Parameters heading followed by that line |
| Methods.PrivateBlockContent | lib/docit.js:236-240 | a private block is the separator and styled api label followed by ` private` and a newline |
| Methods.OutBlockContent | lib/docit.js:241-253 | a return block is its heading, then its line with the return type style and a newline; an exception or throws block likewise with the throws heading and type style |
| Methods.Walk | lib/docit.js:217-256 | the walk is empty iff no tag has a key the walk knows, and it opens with the first tag's block |
| Methods.WalkBlockwise | lib/docit.js:211-256 | the walk is the concatenation of one block per tag in source order, each given the separator and Parameters flag that the earlier tags leave |
| Methods.WalkIgnoresUnknown | lib/docit.js:219-256 | inserting a tag with an unknown key anywhere leaves the walk's output unchanged |
| Methods.MethodName | lib/docit.js:201 | the heading value is the truthy `method` tag, else the `methodName` tag; it is truthy iff either is |
| Methods.MethodPreamble | lib/docit.js:198-215 | the preamble opens with the leading rule, followed by the styled heading when the heading value is truthy, and ends with the text line when there is text; it is the rule alone iff heading, signature and text are all falsy |
| Methods.PreambleSignature | lib/docit.js:206-215 | a truthy signature is printed, styled, immediately before the text line, which ends the preamble |
| Methods.MethodComment | lib/docit.js:193-262 | a suppressed method gives nothing; otherwise the fragment is the preamble, then the tag walk started with the first api value and the text-dependent separator, then the trailing rule; the leading and trailing rules appear exactly when their flags are `"true"` |
| Methods.DefaultMethodFraming | lib/docit.js:25-27 | under the built-in defaults a shown method starts with the horizontal rule and is exactly its preamble followed by its tag walk, with no rule after it |
| Document.RenderRecord | lib/docit.js:107-120 | after a record the state is its kind iff it is a shown variable or type, and unchanged otherwise |
| Document.ModuleAlwaysContributes | lib/docit.js:111-112 | a module record always contributes a non-empty fragment |
| Document.SuppressedContributesNothing | lib/docit.js:195-197 | suppressed method, variable and type records contribute nothing and keep the state |
| Document.VariableHeadingPrefix | lib/docit.js:269-273 | a shown variable's fragment starts with the Variables heading when the state is not Variable |
| Document.TypeHeadingPrefix | lib/docit.js:290-294 | a shown type's fragment starts with the Types heading when the state is not Type |
| Document.GetMarkdown | lib/docit.js:103-126 | the loop computes exactly the left-fold render, and no records give the empty document |
| Document.FoldAppend | lib/docit.js:105-124 | a fold over `a + b` is the fold over `a` followed by the fold over `b` started from the state `a` leaves |
| Document.RenderAppend | lib/docit.js:105-124 | rendering splits over concatenation, the second part continuing from the first part's state |
| Document.RenderFirst | lib/docit.js:105-124 | the document is the first record's emitted fragment followed by the rest rendered from the state it leaves |
| Document.RenderStateIsLastShown | lib/docit.js:269-273 | the state after a render is the kind of the last shown variable or type record, or the initial state when none is shown |
| Document.LastShownOfOneKind | lib/docit.js:290-294 | when every shown record has one kind, the final state is that kind iff something was shown |
| Document.GroupHeadingOncePerRun | lib/docit.js:269-273 | a run whose shown records all have one kind prints its group heading once if something is shown and the state did not already hold that kind, and never otherwise, even when modules, methods or suppressed records are interleaved |
| Document.HeadingPrintedInDocument | lib/docit.js:105-124 | record `i` is rendered in the state the records before it leave, its fragment is appended to their document, and that fragment opens with a non-empty group heading exactly when the record is counted as printing one |
| Document.AllSuppressedRendersNothing | lib/docit.js:103-126 | when every record is a suppressed method, variable or type, the document is empty and the state unchanged |
| Scenarios.VariablesThenType | lib/docit.js:269-273 | three shown variables then a shown type print exactly two group headings, and the type prints its own |
| Scenarios.ShoutedPrivateIsPrivate | lib/docit.js:365-366 | an api value `PRIVATE` makes the comment private |
| Scenarios.PrivateVariableDropped | lib/docit.js:265-267 | under the defaults that variable renders as nothing and leaves the state empty |
| Scenarios.PrivateVariableLabelled | lib/docit.js:275-277 | when privacy is not enforced the same variable renders, and its name carries the private label |
| Scenarios.FirstVersionWins | lib/docit.js:183-186 | with two version tags only the first value appears in the version line |
| Scenarios.ModuleFallsBackToDefault | lib/docit.js:168 | with no module tag and no module name, the heading under the defaults is `Module` |

## Left out

- `determineCodeHandler` (lib/docit.js:152-164) is not modelled. It loads handler modules with `require` and matches file names with regular expressions, so it is foreign code loading.
- `getComments` and `parser.parse` (lib/docit.js:87-94) are not modelled. The comment extractor lives in `lib/parser.js`, which is not part of this model, so the parsed record list is an input. The tag-name spellings in `TAG_NAMES` also come from `lib/parser.js`; the model assumes each tag name is spelled like the tag itself (`method` for the method tag, `methodName`, `variableName` and so on).
- `setConfig` and the settings swap in `getComments` (lib/docit.js:89-91, 148-150) are not modelled. They replace a global; here the settings are a parameter of every renderer.
- The `codeHandler` and `codeHandlers` defaults (lib/docit.js:16-19) are not in `Config.DefaultSettings`. Only `determineCodeHandler` reads them, and all other options are strings.
- Strings.Lower is ASCII lower-casing. `toLocaleLowerCase` depends on the locale, and the model does not reproduce that dependence.
- Comments.IsPrivate: in JavaScript, a first `api` tag with a structured payload would throw when lower-cased. The model treats such a comment as not private.
- Config.Get: a missing option reads as the string `undefined`. JavaScript prints that only when the missing value is joined to a string. Two missing operands give `NaN` (`undefined + undefined`, or `null + undefined` for an absent name under a missing style), and an `=` or `-` style applied to a missing option throws when its length is read. The model can differ from JavaScript only when an option the renderers read is missing, and then only in these `NaN` and throw cases; a missing option joined to a string (a missing label under `*`, say) prints `undefined` in both.
- Comments.TagValueOf reads only a tag's own key. The code as written also finds the inherited `constructor` property, so the constructor line of the simple tags prints `Object`'s source text for every tagged comment without a first `constructor` tag. That behaviour is `Comments.LookupAsWritten` and is reported under Findings; the renderers use the intended lookup.
- Markdown.ApplyMarkdown is total. In JavaScript, a `null` text styled by `=` or `-` throws when the length is read. The model styles the string `null` instead.
- Payloads of the wrong shape are read as JavaScript reads them, not as errors:
  - a missing `name` or `comment` property prints as `undefined`;
  - a missing `type` counts as absent;
  - a structured payload in a text position prints as `[object Object]`, and under `=` or `-` it gets no rule (`Markdown.StyleValue`).
  Payloads whose values are themselves `null`, numbers or booleans are not modelled; every value is text or one of the two structured shapes.
- Records of an unknown kind are not modelled. The `switch` in `getMarkdown` leaves such a record unrendered and skips it.
- `bin/options.js` is not modelled. It is the command-line option table, with no rendering logic.

## Findings

| source | as written | input that shows it | evidently intended | confidence | as-written member | corrected member |
|---|---|---|---|---|---|---|
| lib/docit.js:374 | `tag[tagName]` also reads inherited properties, so under `constructor` every tagged comment whose first tag is not a `constructor` tag answers with the `Object` function, and its simple-tag block prints `*Constructor:* function Object() { [native code] }` | a type comment whose only tag is `class: Foo`, rendered under the built-in defaults | read only a key the tag itself carries, so a comment with no `constructor` tag gets no constructor line | medium: the tag-name spelling `constructor` comes from `lib/parser.js`, which is not part of this model; not executed | Comments.LookupAsWritten, Sections.ConstructorLineAsWritten | Comments.TagValueOf |

=== FILE: comments.dfy ===
/**
 Parsed comment records, the first-match tag lookup (`determineTagValue`) and the
 privacy predicate (`isPrivateComment`).

 A tag is a single key with a payload. Most payloads are plain text; `param`
 tags carry a name, an optional type and a comment; `return`, `exception` and
 `throws` tags carry an optional type and a comment. An empty type stands for
 an absent one: the renderers only test it for truthiness.
 */
module Comments {
  import opened Strings
  import opened Markdown

  datatype Option<T> = None | Some(value: T)

  datatype CommentType = Module | Type | Variable | Method

  /** The group-heading state threaded through a render: the type of the last group heading printed. */
  type State = Option<CommentType>

  datatype TagValue =
    | Text(text: string)
    | ParamValue(name: string, paramType: string, comment: string)
    | OutValue(outType: string, comment: string)

  datatype Tag = Tag(key: string, value: TagValue)

  datatype Comment = Comment(kind: CommentType, text: string, tags: seq<Tag>)

  // Tag keys. Their spellings are fixed by the comment parser (`./parser`), which
  // is not part of this model; the vocabulary's own names are used.
  const ModuleKey := "module"
  const AuthorKey := "author"
  const ConstructorKey := "constructor"
  const DeprecatedKey := "deprecated"
  const RequiresKey := "requires"
  const SeeKey := "see"
  const VersionKey := "version"
  const ApiKey := "api"
  const ParamKey := "param"
  const PrivateKey := "private"
  const ReturnKey := "return"
  const ExceptionKey := "exception"
  const ThrowsKey := "throws"
  const ClassKey := "class"
  const VariableNameKey := "variableName"
  const MethodKey := "method"
  const MethodNameKey := "methodName"
  const MethodSignatureKey := "methodSignature"

  /** JavaScript's string conversion of a payload: a structured payload prints as a plain object. */
  function JsString(v: TagValue): string {
    match v
    case Text(s) => s
    case _ => ObjectText
  }

  /** JavaScript truthiness of a payload: only the empty string is falsy. */
  predicate Truthy(v: TagValue) {
    !v.Text? || v.text != ""
  }

  /** JavaScript's string conversion of a lookup result, where an absent value is `null`. */
  function OrNull(o: Option<TagValue>): string {
    match o
    case None => "null"
    case Some(v) => JsString(v)
  }

  predicate TruthyOpt(o: Option<TagValue>) {
    o.Some? && Truthy(o.value)
  }

  /** `i` is the position of the first tag carrying `key`. */
  ghost predicate FirstWith(tags: seq<Tag>, key: string, i: int) {
    && 0 <= i < |tags|
    && tags[i].key == key
    && forall j :: 0 <= j < i ==> tags[j].key != key
  }

  /**
   The value of the first tag carrying `key` as its own key, or `None`
   (`determineTagValue`'s `null`). This is the lookup docit evidently intends;
   `LookupAsWritten` below is the one its code performs.
   */
  function TagValueOf(key: string, tags: seq<Tag>): (r: Option<TagValue>)
    ensures r.None? <==> forall i :: 0 <= i < |tags| ==> tags[i].key != key
    ensures r.Some? ==> exists i :: FirstWith(tags, key, i) && tags[i].value == r.value
  {
    if |tags| == 0 then None
    else if tags[0].key == key then
      assert FirstWith(tags, key, 0);
      Some(tags[0].value)
    else
      var r := TagValueOf(key, tags[1..]);
      assert forall i :: 0 < i < |tags| ==> tags[i] == tags[1..][i - 1];
      assert r.Some? ==> exists i :: FirstWith(tags, key, i) && tags[i].value == r.value by {
        if r.Some? {
          var k :| FirstWith(tags[1..], key, k) && tags[1..][k].value == r.value;
          assert FirstWith(tags, key, k + 1);
        }
      }
      r
  }

  /** First match wins: a lookup in `a + b` finds `a`'s match when there is one and looks in `b` otherwise. */
  lemma {:induction false} LookupAppend(key: string, a: seq<Tag>, b: seq<Tag>)
    ensures TagValueOf(key, a + b) == if TagValueOf(key, a).Some? then TagValueOf(key, a) else TagValueOf(key, b)
  {
    if |a| == 0 {
      assert a + b == b;
    } else if a[0].key != key {
      assert (a + b)[1..] == a[1..] + b;
      LookupAppend(key, a[1..], b);
    }
  }

  /** Hence a later duplicate tag never changes the value found. */
  lemma LaterTagsIgnored(key: string, tags: seq<Tag>, more: seq<Tag>)
    requires TagValueOf(key, tags).Some?
    ensures TagValueOf(key, tags + more) == TagValueOf(key, tags)
  {
    LookupAppend(key, tags, more);
  }

  /** Swapping two neighbouring tags with different keys changes no lookup. */
  lemma {:induction false} SwapPreservesLookup(key: string, tags: seq<Tag>, i: nat)
    requires i + 1 < |tags| && tags[i].key != tags[i + 1].key
    ensures TagValueOf(key, tags[i := tags[i + 1]][i + 1 := tags[i]]) == TagValueOf(key, tags)
  {
    var swapped := tags[i := tags[i + 1]][i + 1 := tags[i]];
    if i == 0 {
      if tags[0].key != key && tags[1].key != key {
        assert swapped[2..] == tags[2..];
        assert swapped[1..][1..] == tags[2..] && tags[1..][1..] == tags[2..];
      }
    } else if tags[0].key != key {
      assert swapped[1..] == tags[1..][i - 1 := tags[i + 1]][i := tags[i]];
      SwapPreservesLookup(key, tags[1..], i - 1);
    }
  }

  /**
   What the property read `tag[key]` finds on a plain JavaScript object: the
   tag's own payload, or the `Object` function every such object inherits as
   its `constructor`.
   */
  datatype Found = Own(payload: TagValue) | ObjectFunction

  /** The one tag key that every plain object also answers through its prototype. */
  predicate Inherited(key: string) {
    key == ConstructorKey
  }

  /**
   `determineTagValue` as its code reads: `tag[key]` also finds inherited
   properties, so for `constructor` the very first tag answers, with `Object`,
   unless it carries a `constructor` key of its own.
   */
  function LookupAsWritten(key: string, tags: seq<Tag>): (r: Option<Found>)
    ensures !Inherited(key) ==> (r.None? <==> TagValueOf(key, tags).None?)
    ensures !Inherited(key) && r.Some? ==> r.value == Own(TagValueOf(key, tags).value)
    ensures Inherited(key) ==> (r.None? <==> |tags| == 0)
    ensures Inherited(key) && |tags| > 0 && tags[0].key != key ==> r == Some(ObjectFunction)
  {
    if |tags| == 0 then None
    else if tags[0].key == key then Some(Own(tags[0].value))
    else if Inherited(key) then Some(ObjectFunction)
    else LookupAsWritten(key, tags[1..])
  }

  /** JavaScript's string conversion of what the read found; `Object` prints as its native source text. */
  function FoundString(f: Found): string {
    match f
    case Own(v) => JsString(v)
    case ObjectFunction => "function Object() { [native code] }"
  }

  /**
   The discrepancy on one input: on a type comment whose only tag names its
   class, the lookup as written finds a truthy `constructor`, the intended
   lookup none.
   */
  lemma ConstructorFoundOnClassOnlyComment()
    ensures LookupAsWritten(ConstructorKey, [Tag(ClassKey, Text("Foo"))]) == Some(ObjectFunction)
    ensures TagValueOf(ConstructorKey, [Tag(ClassKey, Text("Foo"))]) == None
  {
  }

  /** What `applyMarkdown` receives for a payload: its text, or a structured value. */
  function ToStyleable(v: TagValue): (r: Styleable)
    ensures r.Plain? <==> v.Text?
    ensures r.Plain? ==> r.s == JsString(v)
  {
    if v.Text? then Plain(v.text) else Structured
  }

  /** The api tag that decides privacy holds text that lower-cases to "private". */
  predicate ApiSaysPrivate(api: Option<TagValue>) {
    api.Some? && api.value.Text? && Lower(api.value.text) == "private"
  }

  /** A comment is private iff it has a `private` tag or its first `api` tag reads "private" in any letter case. */
  function IsPrivate(c: Comment): (r: bool)
    ensures r <==>
      || (exists i :: 0 <= i < |c.tags| && c.tags[i].key == PrivateKey)
      || (exists i :: FirstWith(c.tags, ApiKey, i) && c.tags[i].value.Text? && Lower(c.tags[i].value.text) == "private")
  {
    var api := TagValueOf(ApiKey, c.tags);
    assert api.Some? ==> forall i :: FirstWith(c.tags, ApiKey, i) ==> c.tags[i].value == api.value;
    TagValueOf(PrivateKey, c.tags).Some? || ApiSaysPrivate(api)
  }
}

=== FILE: config.dfy ===
/**
 Rendering settings: a flat map from option name to string value, the built-in
 defaults, and the table of simple "label: value" tags.
 */
module Config {
  import opened Comments

  type Settings = map<string, string>

  /** The value of an option; a missing option reads as JavaScript's `undefined`, which prints as "undefined". */
  function Get(s: Settings, key: string): (r: string)
    ensures key in s ==> r == s[key]
    ensures key !in s ==> r == "undefined"
  {
    if key in s then s[key] else "undefined"
  }

  /** The built-in defaults (the code-handler options are not part of this model). */
  const DefaultSettings: Settings := map[
    "apiLabel" := "API:",
    "apiLabelMarkdown" := "*",
    "authorLabel" := "Author:",
    "authorLabelMarkdown" := "*",
    "constructorLabel" := "Constructor:",
    "constructorLabelMarkdown" := "*",
    "defaultModuleHeading" := "Module",
    "deprecatedLabel" := "Deprecated:",
    "deprecatedLabelMarkdown" := "*",
    "includePrivate" := "false",
    "includeHRAfterMethod" := "false",
    "includeHRBeforeMethod" := "true",
    "horizontalRuleMarkdown" := "\n------------------------------------------------\n",
    "methodHeadingMarkdown" := "-",
    "methodSignatureMarkdown" := "###",
    "moduleHeadingMarkdown" := "=",
    "paramsHeading" := "Parameters",
    "paramsHeadingMarkdown" := "####",
    "paramsListMarkdown" := "*",
    "paramTypeMarkdown" := "*",
    "privateTypeLabel" := " (private)",
    "privateVariableLabel" := " (private)",
    "requiresLabel" := "Requires:",
    "requiresLabelMarkdown" := "*",
    "returnHeading" := "Returns",
    "returnHeadingMarkdown" := "####",
    "returnTypeMarkdown" := "*",
    "seeLabel" := "See:",
    "seeLabelMarkdown" := "*",
    "throwsHeading" := "Throws",
    "throwsHeadingMarkdown" := "####",
    "throwsTypeMarkdown" := "*",
    "typeNameMarkdown" := "###",
    "typesHeading" := "Types",
    "typesHeadingMarkdown" := "-",
    "variableNameMarkdown" := "###",
    "variablesHeading" := "Variables",
    "variablesHeadingMarkdown" := "-",
    "versionLabel" := "Version:",
    "versionLabelMarkdown" := "*"
  ]

  /** A simple tag: its key, and the options holding its label and the label's style. */
  datatype SimpleTag = SimpleTag(key: string, labelKey: string, styleKey: string)

  /** The simple tags, in the fixed order they are rendered. */
  const SimpleTags: seq<SimpleTag> := [
    SimpleTag(AuthorKey, "authorLabel", "authorLabelMarkdown"),
    SimpleTag(ConstructorKey, "constructorLabel", "constructorLabelMarkdown"),
    SimpleTag(DeprecatedKey, "deprecatedLabel", "deprecatedLabelMarkdown"),
    SimpleTag(RequiresKey, "requiresLabel", "requiresLabelMarkdown"),
    SimpleTag(SeeKey, "seeLabel", "seeLabelMarkdown"),
    SimpleTag(VersionKey, "versionLabel", "versionLabelMarkdown")
  ]

  /** Private method, variable and type comments are dropped only when `includePrivate` is exactly "false". */
  predicate Suppressed(c: Comment, s: Settings) {
    Get(s, "includePrivate") == "false" && IsPrivate(c)
  }

  /** Under the defaults, private comments are dropped. */
  lemma DefaultsDropPrivate(c: Comment)
    ensures Suppressed(c, DefaultSettings) <==> IsPrivate(c)
  {
  }

  /** The default rule flags and the rule itself: one before every method, none after. */
  lemma DefaultRules()
    ensures Get(DefaultSettings, "includeHRBeforeMethod") == "true"
    ensures Get(DefaultSettings, "includeHRAfterMethod") != "true"
    ensures Get(DefaultSettings, "horizontalRuleMarkdown") == "\n------------------------------------------------\n"
  {
  }
}

=== FILE: document.dfy ===
/**
 The document assembler (`getMarkdown`): dispatches each comment to its section
 renderer, threads the group-heading state from record to record, and appends
 every non-empty fragment followed by a newline.

 The state is a parameter and a result rather than a process-wide variable;
 docit resets it in `getComments` only when comments are parsed, so a render
 may start from any state.
 */
module Document {
  import opened Strings
  import opened Comments
  import opened Config
  import opened Sections
  import opened Methods
  import opened Markdown

  /** A variable or type comment that is not suppressed: exactly the records that set the state. */
  predicate Shown(c: Comment, s: Settings) {
    (c.kind == Variable || c.kind == Type) && !Suppressed(c, s)
  }

  /** The record prints its group heading ("Variables" or "Types") when rendered in state `st`. */
  predicate PrintsGroupHeading(c: Comment, s: Settings, st: State) {
    Shown(c, s) && st != Some(c.kind)
  }

  /** One record's fragment and the state after it. */
  function RenderRecord(c: Comment, s: Settings, moduleName: string, st: State): (r: Rendered)
    ensures r.state == (if Shown(c, s) then Some(c.kind) else st)
  {
    match c.kind
    case Method => Rendered(MethodComment(c, s), st)
    case Module => Rendered(ModuleComment(c, s, moduleName), st)
    case Type => TypeComment(c, s, st)
    case Variable => VariableComment(c, s, st)
  }

  /** Module comments are never filtered: their fragment is never empty. */
  lemma ModuleAlwaysContributes(c: Comment, s: Settings, moduleName: string, st: State)
    requires c.kind == Module
    ensures RenderRecord(c, s, moduleName, st).md != ""
  {
    assert RenderRecord(c, s, moduleName, st).md == ModuleComment(c, s, moduleName);
  }

  /** Private method, variable and type comments contribute nothing when privacy is enforced, and keep the state. */
  lemma SuppressedContributesNothing(c: Comment, s: Settings, moduleName: string, st: State)
    requires c.kind != Module && Suppressed(c, s)
    ensures RenderRecord(c, s, moduleName, st) == Rendered("", st)
  {
    if c.kind == Method {
      assert RenderRecord(c, s, moduleName, st).md == MethodComment(c, s);
    }
  }

  /** A shown variable comment opens with the "Variables" heading exactly when the state is not Variable. */
  lemma VariableHeadingPrefix(c: Comment, s: Settings, moduleName: string, st: State)
    requires c.kind == Variable && !Suppressed(c, s)
    ensures GroupHeading(s, st, Variable, "variablesHeading", "variablesHeadingMarkdown") <= RenderRecord(c, s, moduleName, st).md
    ensures RenderRecord(c, s, moduleName, st).md != ""
  {
    assert RenderRecord(c, s, moduleName, st) == VariableComment(c, s, st);
  }

  /** A shown type comment opens with the "Types" heading exactly when the state is not Type. */
  lemma TypeHeadingPrefix(c: Comment, s: Settings, moduleName: string, st: State)
    requires c.kind == Type && !Suppressed(c, s)
    ensures GroupHeading(s, st, Type, "typesHeading", "typesHeadingMarkdown") <= RenderRecord(c, s, moduleName, st).md
    ensures RenderRecord(c, s, moduleName, st).md != ""
  {
    assert RenderRecord(c, s, moduleName, st) == TypeComment(c, s, st);
  }

  /** What a fragment adds to the document: nothing when empty, else the fragment and a newline. */
  function Emit(fragment: string): (r: string)
    ensures fragment == "" ==> r == ""
    ensures fragment != "" ==> r == fragment + "\n"
  {
    if |fragment| > 0 then fragment + "\n" else ""
  }

  /** Left fold of a per-record step over the records, threading the state and emitting each fragment in turn. */
  function Fold(cs: seq<Comment>, step: (Comment, State) -> Rendered, st: State): (r: Rendered)
    ensures |cs| == 0 ==> r == Rendered("", st)
    decreases |cs|
  {
    if |cs| == 0 then Rendered("", st)
    else
      var before := Fold(cs[..|cs| - 1], step, st);
      var last := step(cs[|cs| - 1], before.state);
      Rendered(before.md + Emit(last.md), last.state)
  }

  /** The per-record step of a render under fixed settings and module name. */
  function Step(s: Settings, moduleName: string): (Comment, State) -> Rendered {
    (c, st) => RenderRecord(c, s, moduleName, st)
  }

  /** The document for `cs` rendered from state `st`, record by record in input order. */
  function Render(cs: seq<Comment>, s: Settings, moduleName: string, st: State): Rendered {
    Fold(cs, Step(s, moduleName), st)
  }

  /** docit's `getMarkdown` loop over the comments; it computes exactly `Render`, and nothing for no comments. */
  method GetMarkdown(comments: seq<Comment>, s: Settings, moduleName: string, st: State) returns (md: string, state: State)
    ensures Rendered(md, state) == Render(comments, s, moduleName, st)
    ensures |comments| == 0 ==> md == ""
  {
    md := "";
    state := st;
    var i := 0;
    while i < |comments|
      invariant 0 <= i <= |comments|
      invariant Rendered(md, state) == Fold(comments[..i], Step(s, moduleName), st)
    {
      ghost var old_state := state;
      var fragment := RenderRecord(comments[i], s, moduleName, state);
      if |fragment.md| > 0 {
        md := md + (fragment.md + "\n");
      }
      state := fragment.state;
      FoldSnoc(comments, i, Step(s, moduleName), st);
      assert Step(s, moduleName)(comments[i], old_state) == fragment;
      i := i + 1;
    }
    assert comments[..|comments|] == comments;
  }

  /** One more record extends a fold by that record's contribution. */
  lemma FoldSnoc(cs: seq<Comment>, i: nat, step: (Comment, State) -> Rendered, st: State)
    requires i < |cs|
    ensures Fold(cs[..i + 1], step, st)
            == Rendered(Fold(cs[..i], step, st).md + Emit(step(cs[i], Fold(cs[..i], step, st).state).md),
                        step(cs[i], Fold(cs[..i], step, st).state).state)
  {
    assert cs[..i + 1][..i] == cs[..i];
  }

  /** The last record's contribution, read off a non-empty fold. */
  lemma FoldLast(cs: seq<Comment>, pre: seq<Comment>, x: Comment, step: (Comment, State) -> Rendered, st: State)
    requires cs == pre + [x]
    ensures Fold(cs, step, st) == Rendered(Fold(pre, step, st).md + Emit(step(x, Fold(pre, step, st).state).md),
                                          step(x, Fold(pre, step, st).state).state)
  {
    assert cs[..|cs| - 1] == pre;
  }

  /** A fold splits over concatenation: the second part continues from the first part's state. */
  lemma {:induction false} FoldAppend(a: seq<Comment>, b: seq<Comment>, step: (Comment, State) -> Rendered, st: State)
    ensures Fold(a + b, step, st) == Rendered(Fold(a, step, st).md + Fold(b, step, Fold(a, step, st).state).md,
                                             Fold(b, step, Fold(a, step, st).state).state)
    decreases |b|
  {
    if |b| == 0 {
      assert a + b == a;
    } else {
      var ra := Fold(a, step, st);
      var b', x := b[..|b| - 1], b[|b| - 1];
      assert b == b' + [x];
      assert a + b == (a + b') + [x];
      FoldAppend(a, b', step, st);
      FoldLast(a + b, a + b', x, step, st);
      FoldLast(b, b', x, step, ra.state);
      var rb' := Fold(b', step, ra.state);
      AppendAssoc(ra.md, rb'.md, Emit(step(x, rb'.state).md));
    }
  }

  /** Rendering splits over concatenation: the second part continues from the first part's state. */
  lemma RenderAppend(a: seq<Comment>, b: seq<Comment>, s: Settings, moduleName: string, st: State)
    ensures Render(a + b, s, moduleName, st).md
            == Render(a, s, moduleName, st).md + Render(b, s, moduleName, Render(a, s, moduleName, st).state).md
    ensures Render(a + b, s, moduleName, st).state
            == Render(b, s, moduleName, Render(a, s, moduleName, st).state).state
  {
    FoldAppend(a, b, Step(s, moduleName), st);
  }

  /** The document is the first record's contribution followed by the rest rendered from the state it leaves. */
  lemma RenderFirst(c: Comment, cs: seq<Comment>, s: Settings, moduleName: string, st: State)
    ensures Render([c] + cs, s, moduleName, st).md
            == Emit(RenderRecord(c, s, moduleName, st).md)
               + Render(cs, s, moduleName, RenderRecord(c, s, moduleName, st).state).md
  {
    RenderAppend([c], cs, s, moduleName, st);
    assert [c][..0] == [];
    var first := RenderRecord(c, s, moduleName, st);
    assert Step(s, moduleName)(c, st) == first;
    assert Render([c], s, moduleName, st) == Rendered("" + Emit(first.md), first.state);
    assert "" + Emit(first.md) == Emit(first.md);
  }

  /** The state after the last shown variable or type record, or `st` when there is none. */
  function LastShown(cs: seq<Comment>, s: Settings, st: State): State
    decreases |cs|
  {
    if |cs| == 0 then st
    else if Shown(cs[|cs| - 1], s) then Some(cs[|cs| - 1].kind)
    else LastShown(cs[..|cs| - 1], s, st)
  }

  /** Only shown variable and type records move the state; modules, methods and suppressed records leave it. */
  lemma {:induction false} RenderStateIsLastShown(cs: seq<Comment>, s: Settings, moduleName: string, st: State)
    ensures Render(cs, s, moduleName, st).state == LastShown(cs, s, st)
    decreases |cs|
  {
    if |cs| > 0 {
      RenderStateIsLastShown(cs[..|cs| - 1], s, moduleName, st);
      var before := Render(cs[..|cs| - 1], s, moduleName, st);
      assert Render(cs, s, moduleName, st).state == RenderRecord(cs[|cs| - 1], s, moduleName, before.state).state;
    }
  }

  /** How many group headings a render of `cs` from state `st` prints. */
  function HeadingCount(cs: seq<Comment>, s: Settings, st: State): nat
    decreases |cs|
  {
    if |cs| == 0 then 0
    else
      var before := cs[..|cs| - 1];
      HeadingCount(before, s, st) + if PrintsGroupHeading(cs[|cs| - 1], s, LastShown(before, s, st)) then 1 else 0
  }

  /** When every shown record has kind `kind`, the state after a run is `kind` exactly when something was shown. */
  lemma {:induction false} LastShownOfOneKind(cs: seq<Comment>, s: Settings, st: State, kind: CommentType)
    requires forall i :: 0 <= i < |cs| && Shown(cs[i], s) ==> cs[i].kind == kind
    ensures LastShown(cs, s, st) == if exists i :: 0 <= i < |cs| && Shown(cs[i], s) then Some(kind) else st
    decreases |cs|
  {
    if |cs| > 0 {
      var before := cs[..|cs| - 1];
      assert forall i :: 0 <= i < |before| ==> before[i] == cs[i];
      LastShownOfOneKind(before, s, st, kind);
      if !Shown(cs[|cs| - 1], s) && exists i :: 0 <= i < |cs| && Shown(cs[i], s) {
        var i :| 0 <= i < |cs| && Shown(cs[i], s);
        assert 0 <= i < |before| && Shown(before[i], s);
      }
    }
  }

  /**
   A run in which every shown record is a variable (or every one a type), even
   one interleaved with module, method and suppressed records, prints its group
   heading exactly once when something is shown and the run does not start in
   that kind's state, and never otherwise.
   */
  lemma {:induction false} GroupHeadingOncePerRun(cs: seq<Comment>, s: Settings, st: State, kind: CommentType)
    requires forall i :: 0 <= i < |cs| && Shown(cs[i], s) ==> cs[i].kind == kind
    ensures HeadingCount(cs, s, st) == if st != Some(kind) && exists i :: 0 <= i < |cs| && Shown(cs[i], s) then 1 else 0
    decreases |cs|
  {
    if |cs| > 0 {
      var before := cs[..|cs| - 1];
      assert forall i :: 0 <= i < |before| ==> before[i] == cs[i];
      GroupHeadingOncePerRun(before, s, st, kind);
      LastShownOfOneKind(before, s, st, kind);
      if exists i :: 0 <= i < |before| && Shown(before[i], s) {
        var i :| 0 <= i < |before| && Shown(before[i], s);
        assert Shown(cs[i], s);
      } else if exists i :: 0 <= i < |cs| && Shown(cs[i], s) {
        var i :| 0 <= i < |cs| && Shown(cs[i], s);
        assert i == |cs| - 1;
      }
    }
  }

  /** The group heading a record of kind Variable or Type would print in state `st`; nothing for other kinds. */
  function KindHeading(c: Comment, s: Settings, st: State): string {
    match c.kind
    case Variable => GroupHeading(s, st, Variable, "variablesHeading", "variablesHeadingMarkdown")
    case Type => GroupHeading(s, st, Type, "typesHeading", "typesHeadingMarkdown")
    case _ => ""
  }

  /**
   What `HeadingCount` counts is what the document prints: record `i` is
   rendered in the state `LastShown` gives for the records before it, its
   fragment is appended to the document of those records, and that fragment
   opens with a non-empty group heading exactly when `PrintsGroupHeading` holds.
   */
  lemma HeadingPrintedInDocument(cs: seq<Comment>, i: nat, s: Settings, moduleName: string, st: State)
    requires i < |cs|
    ensures Render(cs[..i], s, moduleName, st).state == LastShown(cs[..i], s, st)
    ensures var fragment := RenderRecord(cs[i], s, moduleName, LastShown(cs[..i], s, st)).md;
      Render(cs[..i + 1], s, moduleName, st).md == Render(cs[..i], s, moduleName, st).md + Emit(fragment)
    ensures Shown(cs[i], s) ==>
              KindHeading(cs[i], s, LastShown(cs[..i], s, st))
              <= RenderRecord(cs[i], s, moduleName, LastShown(cs[..i], s, st)).md
    ensures PrintsGroupHeading(cs[i], s, LastShown(cs[..i], s, st))
            <==> Shown(cs[i], s) && KindHeading(cs[i], s, LastShown(cs[..i], s, st)) != ""
  {
    var state := LastShown(cs[..i], s, st);
    RenderStateIsLastShown(cs[..i], s, moduleName, st);
    FoldSnoc(cs, i, Step(s, moduleName), st);
    assert Step(s, moduleName)(cs[i], state) == RenderRecord(cs[i], s, moduleName, state);
    if Shown(cs[i], s) {
      if cs[i].kind == Variable {
        VariableHeadingPrefix(cs[i], s, moduleName, state);
      } else {
        TypeHeadingPrefix(cs[i], s, moduleName, state);
      }
    }
  }

  /** When every record is a private method, variable or type and privacy is enforced, the document is empty. */
  lemma {:induction false} AllSuppressedRendersNothing(cs: seq<Comment>, s: Settings, moduleName: string, st: State)
    requires forall i :: 0 <= i < |cs| ==> cs[i].kind != Module && Suppressed(cs[i], s)
    ensures Render(cs, s, moduleName, st) == Rendered("", st)
    decreases |cs|
  {
    if |cs| > 0 {
      var before := cs[..|cs| - 1];
      assert forall i :: 0 <= i < |before| ==> before[i] == cs[i];
      AllSuppressedRendersNothing(before, s, moduleName, st);
      var before' := Render(before, s, moduleName, st);
      SuppressedContributesNothing(cs[|cs| - 1], s, moduleName, before'.state);
      assert Render(cs, s, moduleName, st) == Rendered(before'.md + Emit(""), st);
    }
  }
}

=== FILE: markdown.dfy ===
/**
 The three-way Markdown style language of docit's `applyMarkdown`: a style
 token either underlines the text (`=` or `-`), brackets it as an ATX heading
 (`#` to `######`), or wraps it with no spaces (any other token, e.g. `*`).
 */
module Markdown {
  import opened Strings

  predicate IsUnderline(token: string) {
    token == "=" || token == "-"
  }

  predicate IsAtx(token: string) {
    token in {"#", "##", "###", "####", "#####", "######"}
  }

  /**
   The text, a newline, and a rule of `ch` as long as JavaScript's `length` of
   the text, which counts UTF-16 code units rather than characters.
   */
  function Underline(text: string, ch: char): (r: string)
    ensures |r| == |text| + 1 + Utf16Length(text)
    ensures r[..|text|] == text && r[|text|] == '\n'
    ensures forall i :: |text| < i < |r| ==> r[i] == ch
  {
    var line := Repeat(ch, Utf16Length(text));
    var r := text + "\n" + line;
    assert forall i :: |text| < i < |r| ==> r[i] == line[i - |text| - 1];
    r
  }

  /** Applies a style token to a string (docit's `applyMarkdown`). */
  function ApplyMarkdown(text: string, token: string): (r: string)
    ensures IsUnderline(token) ==>
      && |r| == |text| + 1 + Utf16Length(text)
      && r[..|text|] == text
      && r[|text|] == '\n'
      && forall i :: |text| < i < |r| ==> r[i] == token[0]
    ensures IsAtx(token) ==> r == token + " " + text + " " + token
    ensures !IsUnderline(token) && !IsAtx(token) ==> r == token + text + token
  {
    if IsUnderline(token) then
      Underline(text, token[0])
    else if IsAtx(token) then
      token + " " + text + " " + token
    else
      token + text + token
  }

  /**
   Where an underlined string ends: the first cut `k` from which the text
   `styled[..k]`, a newline and a rule of its length would fill `styled`.
   */
  function UnderlineCut(styled: string, k: nat): (cut: nat)
    requires k <= |styled|
    ensures k <= cut <= |styled|
    decreases |styled| - k
  {
    if k == |styled| || k + 1 + Utf16Length(styled[..k]) >= |styled| then k
    else UnderlineCut(styled, k + 1)
  }

  /** Recovers the text from its styled form: the inverse of `ApplyMarkdown` for a fixed token. */
  function Unstyle(styled: string, token: string): string {
    if IsUnderline(token) then
      styled[..UnderlineCut(styled, 0)]
    else if IsAtx(token) then
      if |styled| >= 2 * |token| + 2 then styled[|token| + 1..|styled| - |token| - 1] else ""
    else
      if |styled| >= 2 * |token| then styled[|token|..|styled| - |token|] else ""
  }

  /** The search for the cut passes every shorter prefix of the text and stops at the newline. */
  lemma {:induction false} UnderlineCutFinds(text: string, ch: char, k: nat)
    requires k <= |text|
    ensures UnderlineCut(Underline(text, ch), k) == |text|
    decreases |text| - k
  {
    var r := Underline(text, ch);
    assert r[..|text|] == text;
    if k < |text| {
      assert r[..k] == text[..k];
      Utf16LengthPrefix(text, k);
      UnderlineCutFinds(text, ch, k + 1);
    }
  }

  /** Styling loses nothing: the text is recovered from the styled form under every token. */
  lemma UnstyleApply(text: string, token: string)
    ensures Unstyle(ApplyMarkdown(text, token), token) == text
  {
    var r := ApplyMarkdown(text, token);
    if IsUnderline(token) {
      UnderlineCutFinds(text, token[0], 0);
    } else if IsAtx(token) {
      assert r[|token| + 1..|r| - |token| - 1] == text;
    } else {
      assert r[|token|..|r| - |token|] == text;
    }
  }

  /** Hence two different texts never render alike under the same token. */
  lemma ApplyMarkdownInjective(a: string, b: string, token: string)
    requires ApplyMarkdown(a, token) == ApplyMarkdown(b, token)
    ensures a == b
  {
    UnstyleApply(a, token);
    UnstyleApply(b, token);
  }

  /** What `applyMarkdown` receives as its text: a string, or a structured payload. */
  datatype Styleable = Plain(s: string) | Structured

  /** JavaScript's string conversion of a structured payload. */
  const ObjectText := "[object Object]"

  /**
   A styled value. A structured payload prints as `[object Object]`; under `=`
   or `-` its `length` is undefined, so the rule loop never runs and the rule
   is empty.
   */
  function StyleValue(v: Styleable, token: string): (r: string)
    ensures v.Plain? ==> r == ApplyMarkdown(v.s, token)
    ensures v.Structured? && IsUnderline(token) ==> r == ObjectText + "\n"
    ensures v.Structured? && !IsUnderline(token) ==> r == ApplyMarkdown(ObjectText, token)
  {
    match v
    case Plain(s) => ApplyMarkdown(s, token)
    case Structured => if IsUnderline(token) then ObjectText + "\n" else ApplyMarkdown(ObjectText, token)
  }

  /** An underlined string always carries its newline at its own length, and a rule after it. */
  lemma UnderlinedStringIsNotBare(text: string, token: string)
    requires IsUnderline(token)
    ensures ApplyMarkdown(text, token) != ObjectText + "\n"
  {
    var r := ApplyMarkdown(text, token);
    var u := ObjectText + "\n";
    if |text| >= 15 {
      assert |r| >= 31 && |u| == 16;
    } else {
      assert '\n' !in ObjectText;
      assert u[|text|] == ObjectText[|text|];
      assert r[|text|] == '\n';
    }
  }

  /** Under `=` or `-`, a structured payload is the one value whose styled form carries no rule. */
  lemma StructuredUnderlineHasNoRule(v: Styleable, token: string)
    requires IsUnderline(token)
    ensures StyleValue(v, token) == ObjectText + "\n" <==> v.Structured?
  {
    if v.Plain? {
      UnderlinedStringIsNotBare(v.s, token);
    }
  }

  /** The worked heading examples: underline, ATX and wrap, and a character outside the Basic Multilingual Plane. */
  lemma ApplyMarkdownExamples()
    ensures ApplyMarkdown("Foo", "=") == "Foo\n==="
    ensures ApplyMarkdown("Foo", "###") == "### Foo ###"
    ensures ApplyMarkdown("Foo", "*") == "*Foo*"
    ensures ApplyMarkdown("\U{1F600}", "=") == "\U{1F600}\n=="
  {
    var u := ApplyMarkdown("Foo", "=");
    assert |u| == 7;
    assert u == "Foo\n===";
    var e := ApplyMarkdown("\U{1F600}", "=");
    assert Utf16Length("\U{1F600}") == 2 by {
      assert "\U{1F600}"[..0] == "";
    }
    assert |e| == 4;
    assert e == "\U{1F600}\n==";
  }
}

=== FILE: methods.dfy ===
/**
 The method renderer: optional rules, heading, signature and text, then a walk
 over the comment's tags in source order that emits api, param, private,
 return and throws blocks.

 The walk carries two pieces of state: `lineStart`, the separator put before
 the next block, and whether the Parameters heading has been printed.
 */
module Methods {
  import opened Strings
  import opened Markdown
  import opened Comments
  import opened Config
  import opened Sections

  // JavaScript property reads on a payload. A plain-text payload has no such
  // properties: a missing name or comment prints as "undefined", and a missing
  // type reads as falsy, like the empty type.

  function PropName(v: TagValue): string {
    if v.ParamValue? then v.name else "undefined"
  }

  function PropType(v: TagValue): string {
    match v
    case ParamValue(_, t, _) => t
    case OutValue(t, _) => t
    case Text(_) => ""
  }

  function PropComment(v: TagValue): string {
    if v.Text? then "undefined" else v.comment
  }

  /** A parameter line: list marker, name, the styled type and a space when the type is present, then the comment. */
  function ParamLine(v: TagValue, s: Settings): (r: string)
    ensures (Get(s, "paramsListMarkdown") + " " + PropName(v) + " ") <= r
    ensures IsSuffix(PropComment(v), r)
    ensures PropType(v) == "" ==> |r| == |Get(s, "paramsListMarkdown") + " " + PropName(v) + " "| + |PropComment(v)|
    ensures PropType(v) != "" ==>
              |r| == |Get(s, "paramsListMarkdown") + " " + PropName(v) + " "|
                     + |ApplyMarkdown(PropType(v), Get(s, "paramTypeMarkdown"))| + 1 + |PropComment(v)|
    ensures PropType(v) != "" ==>
              r[|Get(s, "paramsListMarkdown") + " " + PropName(v) + " "|..|r| - |PropComment(v)|]
              == ApplyMarkdown(PropType(v), Get(s, "paramTypeMarkdown")) + " "
  {
    var head := Get(s, "paramsListMarkdown") + " " + PropName(v) + " ";
    var typed := if PropType(v) != "" then ApplyMarkdown(PropType(v), Get(s, "paramTypeMarkdown")) + " " else "";
    var r := head + typed + PropComment(v);
    assert r[..|head|] == head;
    assert r[|head|..|r| - |PropComment(v)|] == typed;
    r
  }

  /** A return or throws line: the type styled by the option `typeStyleKey` and a space when present, then the comment. */
  function OutLine(v: TagValue, typeStyleKey: string, s: Settings): (r: string)
    ensures IsSuffix(PropComment(v), r)
    ensures PropType(v) == "" ==> r == PropComment(v)
    ensures PropType(v) != "" ==> r[..|r| - |PropComment(v)|] == ApplyMarkdown(PropType(v), Get(s, typeStyleKey)) + " "
  {
    var typed := if PropType(v) != "" then ApplyMarkdown(PropType(v), Get(s, typeStyleKey)) + " " else "";
    var r := typed + PropComment(v);
    assert r[..|typed|] == typed;
    r
  }

  /** A return or throws block: its heading, repeated for every such tag, then the line. */
  function OutBlock(v: TagValue, lineStart: string, s: Settings, headingKey: string, styleKey: string, typeStyleKey: string): (r: string)
    ensures (lineStart + Styled(s, headingKey, styleKey) + "\n\n") <= r
    ensures IsSuffix(OutLine(v, typeStyleKey, s) + "\n", r)
    ensures |r| == |lineStart + Styled(s, headingKey, styleKey) + "\n\n"| + |OutLine(v, typeStyleKey, s)| + 1
  {
    var heading := lineStart + Styled(s, headingKey, styleKey) + "\n\n";
    var line := OutLine(v, typeStyleKey, s) + "\n";
    assert (heading + line)[..|heading|] == heading;
    assert (heading + line)[|heading|..] == line;
    heading + line
  }

  /** The tag keys the method walk reacts to; every other key adds nothing. */
  predicate Known(key: string) {
    key in {ApiKey, ParamKey, PrivateKey, ReturnKey, ExceptionKey, ThrowsKey}
  }

  /** The block one tag adds, given the current separator and whether the Parameters heading is out. */
  function TagBlock(t: Tag, api: string, s: Settings, lineStart: string, paramsStarted: bool): (r: string)
    ensures r == "" <==> !Known(t.key)
    ensures t.key == ApiKey ==> IsSuffix(" " + api, r)
    ensures t.key == ParamKey && paramsStarted ==> r == ParamLine(t.value, s) + "\n"
    ensures t.key == ParamKey && !paramsStarted ==>
              (lineStart + Styled(s, "paramsHeading", "paramsHeadingMarkdown") + "\n\n") <= r
    ensures t.key == ReturnKey ==> (lineStart + Styled(s, "returnHeading", "returnHeadingMarkdown") + "\n\n") <= r
    ensures t.key == ExceptionKey || t.key == ThrowsKey ==>
              (lineStart + Styled(s, "throwsHeading", "throwsHeadingMarkdown") + "\n\n") <= r
  {
    if t.key == ApiKey then
      var r := lineStart + Styled(s, "apiLabel", "apiLabelMarkdown") + " " + api;
      assert r == (lineStart + Styled(s, "apiLabel", "apiLabelMarkdown")) + (" " + api);
      r
    else if t.key == ParamKey then
      var heading := if paramsStarted then "" else lineStart + Styled(s, "paramsHeading", "paramsHeadingMarkdown") + "\n\n";
      heading + (ParamLine(t.value, s) + "\n")
    else if t.key == PrivateKey then
      lineStart + Styled(s, "apiLabel", "apiLabelMarkdown") + " private" + "\n"
    else if t.key == ReturnKey then
      OutBlock(t.value, lineStart, s, "returnHeading", "returnHeadingMarkdown", "returnTypeMarkdown")
    else if t.key == ExceptionKey || t.key == ThrowsKey then
      OutBlock(t.value, lineStart, s, "throwsHeading", "throwsHeadingMarkdown", "throwsTypeMarkdown")
    else
      ""
  }

  /** An api block: the separator and the styled api label, a space, then the first api value. */
  lemma ApiBlockContent(t: Tag, api: string, s: Settings, lineStart: string, paramsStarted: bool)
    requires t.key == ApiKey
    ensures lineStart + Styled(s, "apiLabel", "apiLabelMarkdown") <= TagBlock(t, api, s, lineStart, paramsStarted)
    ensures |TagBlock(t, api, s, lineStart, paramsStarted)| == |lineStart + Styled(s, "apiLabel", "apiLabelMarkdown")| + 1 + |api|
  {
    var opening := lineStart + Styled(s, "apiLabel", "apiLabelMarkdown");
    var r := TagBlock(t, api, s, lineStart, paramsStarted);
    assert r == opening + (" " + api);
    assert r[..|opening|] == opening;
  }

  /** A param block ends with the param line; for the first param, the Parameters heading is all that precedes it. */
  lemma ParamBlockContent(t: Tag, api: string, s: Settings, lineStart: string, paramsStarted: bool)
    requires t.key == ParamKey
    ensures IsSuffix(ParamLine(t.value, s) + "\n", TagBlock(t, api, s, lineStart, paramsStarted))
    ensures !paramsStarted ==>
              |TagBlock(t, api, s, lineStart, paramsStarted)|
              == |lineStart + Styled(s, "paramsHeading", "paramsHeadingMarkdown") + "\n\n"| + |ParamLine(t.value, s)| + 1
  {
    var r := TagBlock(t, api, s, lineStart, paramsStarted);
    var line := ParamLine(t.value, s) + "\n";
    var heading := if paramsStarted then "" else lineStart + Styled(s, "paramsHeading", "paramsHeadingMarkdown") + "\n\n";
    assert r == heading + line;
    assert r[|r| - |line|..] == line;
  }

  /** A private block: the separator and the styled api label, then " private" and a newline. */
  lemma PrivateBlockContent(t: Tag, api: string, s: Settings, lineStart: string, paramsStarted: bool)
    requires t.key == PrivateKey
    ensures lineStart + Styled(s, "apiLabel", "apiLabelMarkdown") <= TagBlock(t, api, s, lineStart, paramsStarted)
    ensures IsSuffix(" private\n", TagBlock(t, api, s, lineStart, paramsStarted))
    ensures |TagBlock(t, api, s, lineStart, paramsStarted)| == |lineStart + Styled(s, "apiLabel", "apiLabelMarkdown")| + 9
  {
    var opening := lineStart + Styled(s, "apiLabel", "apiLabelMarkdown");
    var r := TagBlock(t, api, s, lineStart, paramsStarted);
    assert r == opening + " private\n";
    assert r[..|opening|] == opening;
    assert r[|r| - 9..] == " private\n";
  }

  /** A return, exception or throws block: its heading, then its line and a newline, and nothing else. */
  lemma OutBlockContent(t: Tag, api: string, s: Settings, lineStart: string, paramsStarted: bool)
    requires t.key in {ReturnKey, ExceptionKey, ThrowsKey}
    ensures t.key == ReturnKey ==>
              IsSuffix(OutLine(t.value, "returnTypeMarkdown", s) + "\n", TagBlock(t, api, s, lineStart, paramsStarted))
              && |TagBlock(t, api, s, lineStart, paramsStarted)|
                 == |lineStart + Styled(s, "returnHeading", "returnHeadingMarkdown") + "\n\n"|
                    + |OutLine(t.value, "returnTypeMarkdown", s)| + 1
    ensures t.key != ReturnKey ==>
              IsSuffix(OutLine(t.value, "throwsTypeMarkdown", s) + "\n", TagBlock(t, api, s, lineStart, paramsStarted))
              && |TagBlock(t, api, s, lineStart, paramsStarted)|
                 == |lineStart + Styled(s, "throwsHeading", "throwsHeadingMarkdown") + "\n\n"|
                    + |OutLine(t.value, "throwsTypeMarkdown", s)| + 1
  {
  }

  /** The separator after tag `t`: every known tag resets it to a newline; other tags leave it alone. */
  function NextLineStart(t: Tag, lineStart: string): string {
    if Known(t.key) then "\n" else lineStart
  }

  /** The tag walk in source order, threading the separator and the Parameters flag. */
  function Walk(tags: seq<Tag>, api: string, s: Settings, lineStart: string, paramsStarted: bool): (r: string)
    ensures r == "" <==> forall i :: 0 <= i < |tags| ==> !Known(tags[i].key)
    ensures |tags| > 0 ==> TagBlock(tags[0], api, s, lineStart, paramsStarted) <= r
  {
    if |tags| == 0 then ""
    else
      var first := TagBlock(tags[0], api, s, lineStart, paramsStarted);
      var rest := Walk(tags[1..], api, s, NextLineStart(tags[0], lineStart), paramsStarted || tags[0].key == ParamKey);
      assert forall i :: 0 < i < |tags| ==> tags[i] == tags[1..][i - 1];
      assert (first + rest)[..|first|] == first;
      first + rest
  }

  /** The separator before tag `i`: the initial one until some known tag has been seen, a newline afterwards. */
  ghost function LineStartAt(tags: seq<Tag>, i: nat, lineStart: string): string
    requires i <= |tags|
  {
    if exists j :: 0 <= j < i && Known(tags[j].key) then "\n" else lineStart
  }

  /** The Parameters heading is out before tag `i` iff it was out initially or some earlier tag is a param. */
  ghost predicate ParamsStartedAt(tags: seq<Tag>, i: nat, paramsStarted: bool)
    requires i <= |tags|
  {
    paramsStarted || exists j :: 0 <= j < i && tags[j].key == ParamKey
  }

  /** Each tag's block computed from its position alone, with no threaded state. */
  ghost function Blocks(tags: seq<Tag>, api: string, s: Settings, lineStart: string, paramsStarted: bool): (b: seq<string>)
    ensures |b| == |tags|
  {
    seq(|tags|, i requires 0 <= i < |tags| =>
      TagBlock(tags[i], api, s, LineStartAt(tags, i, lineStart), ParamsStartedAt(tags, i, paramsStarted)))
  }

  lemma LineStartShift(tags: seq<Tag>, i: nat, lineStart: string)
    requires i < |tags|
    ensures LineStartAt(tags, i + 1, lineStart) == LineStartAt(tags[1..], i, NextLineStart(tags[0], lineStart))
  {
    var rest := tags[1..];
    if Known(tags[0].key) {
      assert 0 <= 0 < i + 1 && Known(tags[0].key);
    } else if exists j :: 0 <= j < i + 1 && Known(tags[j].key) {
      var j :| 0 <= j < i + 1 && Known(tags[j].key);
      assert j > 0 && 0 <= j - 1 < i && Known(rest[j - 1].key);
    } else {
      assert forall j :: 0 <= j < i ==> rest[j] == tags[j + 1];
    }
  }

  lemma ParamsStartedShift(tags: seq<Tag>, i: nat, paramsStarted: bool)
    requires i < |tags|
    ensures ParamsStartedAt(tags, i + 1, paramsStarted)
            == ParamsStartedAt(tags[1..], i, paramsStarted || tags[0].key == ParamKey)
  {
    var rest := tags[1..];
    if exists j :: 0 <= j < i + 1 && tags[j].key == ParamKey {
      var j :| 0 <= j < i + 1 && tags[j].key == ParamKey;
      if j > 0 {
        assert 0 <= j - 1 < i && rest[j - 1].key == ParamKey;
      }
    }
    if exists j :: 0 <= j < i && rest[j].key == ParamKey {
      var j :| 0 <= j < i && rest[j].key == ParamKey;
      assert 0 <= j + 1 < i + 1 && tags[j + 1].key == ParamKey;
    }
  }

  /**
   The walk is the concatenation of the per-position blocks: the Parameters
   heading comes out only before the first param, and the separator is the
   initial one only up to the first known tag and a newline everywhere after.
   */
  lemma {:induction false} WalkBlockwise(tags: seq<Tag>, api: string, s: Settings, lineStart: string, paramsStarted: bool)
    ensures Walk(tags, api, s, lineStart, paramsStarted) == Concat(Blocks(tags, api, s, lineStart, paramsStarted))
  {
    if |tags| > 0 {
      var ls' := NextLineStart(tags[0], lineStart);
      var ps' := paramsStarted || tags[0].key == ParamKey;
      WalkBlockwise(tags[1..], api, s, ls', ps');
      BlocksShift(tags, api, s, lineStart, paramsStarted);
    }
  }

  /** The first block uses the initial state; the other blocks are those of the rest, started from the state the first tag leaves. */
  lemma BlocksShift(tags: seq<Tag>, api: string, s: Settings, lineStart: string, paramsStarted: bool)
    requires |tags| > 0
    ensures Blocks(tags, api, s, lineStart, paramsStarted)[0] == TagBlock(tags[0], api, s, lineStart, paramsStarted)
    ensures Blocks(tags, api, s, lineStart, paramsStarted)[1..]
            == Blocks(tags[1..], api, s, NextLineStart(tags[0], lineStart), paramsStarted || tags[0].key == ParamKey)
  {
    var b := Blocks(tags, api, s, lineStart, paramsStarted);
    var rest := tags[1..];
    var b' := Blocks(rest, api, s, NextLineStart(tags[0], lineStart), paramsStarted || tags[0].key == ParamKey);
    assert LineStartAt(tags, 0, lineStart) == lineStart;
    assert ParamsStartedAt(tags, 0, paramsStarted) == paramsStarted;
    forall i | 0 <= i < |rest|
      ensures b[i + 1] == b'[i]
    {
      assert tags[i + 1] == rest[i];
      LineStartShift(tags, i, lineStart);
      ParamsStartedShift(tags, i, paramsStarted);
    }
    assert b[1..] == b';
  }

  /** Tags with keys the walk does not know add nothing, wherever they stand. */
  lemma {:induction false} WalkIgnoresUnknown(tags: seq<Tag>, i: nat, u: Tag, api: string, s: Settings, lineStart: string, paramsStarted: bool)
    requires i <= |tags| && !Known(u.key)
    ensures Walk(tags[..i] + [u] + tags[i..], api, s, lineStart, paramsStarted) == Walk(tags, api, s, lineStart, paramsStarted)
  {
    var with := tags[..i] + [u] + tags[i..];
    if i == 0 {
      assert with == [u] + tags;
      assert with[1..] == tags;
      assert u.key != ParamKey;
    } else {
      assert with[0] == tags[0];
      assert with[1..] == tags[1..][..i - 1] + [u] + tags[1..][i - 1..];
      WalkIgnoresUnknown(tags[1..], i - 1, u, api, s, NextLineStart(tags[0], lineStart), paramsStarted || tags[0].key == ParamKey);
    }
  }

  /** The heading value: the `method` tag when truthy, else the `methodName` tag. */
  function MethodName(c: Comment): (r: Option<TagValue>)
    ensures TruthyOpt(r) <==> TruthyOpt(TagValueOf(MethodKey, c.tags)) || TruthyOpt(TagValueOf(MethodNameKey, c.tags))
    ensures TruthyOpt(TagValueOf(MethodKey, c.tags)) ==> r == TagValueOf(MethodKey, c.tags)
    ensures !TruthyOpt(TagValueOf(MethodKey, c.tags)) ==> r == TagValueOf(MethodNameKey, c.tags)
  {
    var m := TagValueOf(MethodKey, c.tags);
    if TruthyOpt(m) then m else TagValueOf(MethodNameKey, c.tags)
  }

  /** The horizontal rule when the option `flagKey` is exactly "true", else nothing. */
  function Rule(s: Settings, flagKey: string): string {
    if Get(s, flagKey) == "true" then Get(s, "horizontalRuleMarkdown") else ""
  }

  /** The styled heading and a blank line when the heading value is truthy, else nothing. */
  function HeadingLine(c: Comment, s: Settings): (r: string)
    ensures r == "" <==> !TruthyOpt(MethodName(c))
  {
    var name := MethodName(c);
    if TruthyOpt(name) then StyleValue(ToStyleable(name.value), Get(s, "methodHeadingMarkdown")) + "\n\n" else ""
  }

  /** The styled signature and a blank line when the signature tag is truthy, else nothing. */
  function SignatureLine(c: Comment, s: Settings): (r: string)
    ensures r == "" <==> !TruthyOpt(TagValueOf(MethodSignatureKey, c.tags))
  {
    var signature := TagValueOf(MethodSignatureKey, c.tags);
    if TruthyOpt(signature) then StyleValue(ToStyleable(signature.value), Get(s, "methodSignatureMarkdown")) + "\n\n" else ""
  }

  /** The text and a newline, or nothing when the text is empty. */
  function TextLine(c: Comment): (r: string)
    ensures r == "" <==> c.text == ""
  {
    if c.text != "" then c.text + "\n" else ""
  }

  /**
   Everything before the tag walk: the leading rule, the styled heading when the
   heading value is truthy, the styled signature when it is truthy, and the text line.
   */
  function MethodPreamble(c: Comment, s: Settings): (r: string)
    ensures Rule(s, "includeHRBeforeMethod") <= r
    ensures TruthyOpt(MethodName(c)) ==>
              (Rule(s, "includeHRBeforeMethod")
                       + (StyleValue(ToStyleable(MethodName(c).value), Get(s, "methodHeadingMarkdown")) + "\n\n")) <= r
    ensures c.text != "" ==> IsSuffix(c.text + "\n", r)
    ensures r == Rule(s, "includeHRBeforeMethod") <==>
              !TruthyOpt(MethodName(c)) && !TruthyOpt(TagValueOf(MethodSignatureKey, c.tags)) && c.text == ""
  {
    var rule := Rule(s, "includeHRBeforeMethod");
    var heading := HeadingLine(c, s);
    var signature := SignatureLine(c, s);
    var text := TextLine(c);
    FourPartShape(rule, heading, signature, text);
    rule + (heading + (signature + text))
  }

  /** How a string built of four consecutive parts starts and ends. */
  lemma FourPartShape(a: string, b: string, c: string, d: string)
    ensures a <= a + (b + (c + d))
    ensures (a + b) <= a + (b + (c + d))
    ensures IsSuffix(d, a + (b + (c + d)))
    ensures a + (b + (c + d)) == a <==> b == "" && c == "" && d == ""
  {
    var r := a + (b + (c + d));
    assert r[..|a|] == a;
    assert r[..|a + b|] == a + b;
    assert r[|r| - |d|..] == d;
    assert |r| == |a| + |b| + |c| + |d|;
  }

  /** A truthy signature is printed, styled, right before the text line, whatever precedes it. */
  lemma PreambleSignature(c: Comment, s: Settings)
    requires TruthyOpt(TagValueOf(MethodSignatureKey, c.tags))
    ensures IsSuffix(StyleValue(ToStyleable(TagValueOf(MethodSignatureKey, c.tags).value), Get(s, "methodSignatureMarkdown"))
                     + "\n\n" + TextLine(c), MethodPreamble(c, s))
  {
    var signature := SignatureLine(c, s);
    var text := TextLine(c);
    var r := MethodPreamble(c, s);
    var front := Rule(s, "includeHRBeforeMethod") + HeadingLine(c, s);
    assert r == front + (signature + text);
    assert r[|r| - |signature + text|..] == signature + text;
  }

  /** The separator before the first block: none right after text, a newline when there is no text. */
  function InitialLineStart(c: Comment): string {
    if c.text != "" then "" else "\n"
  }

  /**
   A method comment: empty when suppressed; otherwise the preamble, the tag walk
   (api lines show the first api tag's value), and the trailing rule.
   */
  function MethodComment(c: Comment, s: Settings): (r: string)
    ensures Suppressed(c, s) ==> r == ""
    ensures !Suppressed(c, s) ==>
              r == MethodPreamble(c, s)
                   + (Walk(c.tags, OrNull(TagValueOf(ApiKey, c.tags)), s, InitialLineStart(c), false)
                      + Rule(s, "includeHRAfterMethod"))
    ensures !Suppressed(c, s) && Get(s, "includeHRBeforeMethod") == "true" ==> Get(s, "horizontalRuleMarkdown") <= r
    ensures !Suppressed(c, s) && Get(s, "includeHRAfterMethod") == "true" ==> IsSuffix(Get(s, "horizontalRuleMarkdown"), r)
  {
    if Suppressed(c, s) then ""
    else
      var head := MethodPreamble(c, s);
      var body := Walk(c.tags, OrNull(TagValueOf(ApiKey, c.tags)), s, InitialLineStart(c), false);
      var tail := Rule(s, "includeHRAfterMethod");
      assert (body + tail)[|body + tail| - |tail|..] == tail;
      SuffixOfAppend(tail, head, body + tail);
      head + (body + tail)
  }

  /**
   Under the built-in defaults a shown method opens with the horizontal rule and
   ends with its tag walk: no rule follows it.
   */
  lemma DefaultMethodFraming(c: Comment)
    requires !IsPrivate(c)
    ensures "\n------------------------------------------------\n" <= MethodComment(c, DefaultSettings)
    ensures MethodComment(c, DefaultSettings)
            == MethodPreamble(c, DefaultSettings)
               + Walk(c.tags, OrNull(TagValueOf(ApiKey, c.tags)), DefaultSettings, InitialLineStart(c), false)
  {
    DefaultRules();
    DefaultsDropPrivate(c);
    var body := Walk(c.tags, OrNull(TagValueOf(ApiKey, c.tags)), DefaultSettings, InitialLineStart(c), false);
    assert Rule(DefaultSettings, "includeHRAfterMethod") == "";
    assert body + "" == body;
  }
}

=== FILE: scenarios.dfy ===
/**
 Worked scenarios: group headings across a run of variables and a type,
 privacy suppression with an upper-case api value, first tag wins, and the
 module-heading fallback under the built-in defaults.
 */
module Scenarios {
  import opened Strings
  import opened Markdown
  import opened Comments
  import opened Config
  import opened Sections
  import opened Methods
  import opened Document

  /** Three shown variables followed by a shown type print exactly two group headings: Variables once, Types once. */
  lemma VariablesThenType(v1: Comment, v2: Comment, v3: Comment, t: Comment, s: Settings)
    requires v1.kind == Variable && v2.kind == Variable && v3.kind == Variable && t.kind == Type
    requires !Suppressed(v1, s) && !Suppressed(v2, s) && !Suppressed(v3, s) && !Suppressed(t, s)
    ensures HeadingCount([v1, v2, v3, t], s, None) == 2
    ensures PrintsGroupHeading(t, s, LastShown([v1, v2, v3], s, None))
  {
    var run := [v1, v2, v3];
    assert Shown(run[0], s);
    GroupHeadingOncePerRun(run, s, None, Variable);
    LastShownOfOneKind(run, s, None, Variable);
    assert [v1, v2, v3, t][..3] == run;
  }

  /** A variable comment whose api tag reads "PRIVATE". */
  function ShoutedPrivate(): Comment {
    Comment(Variable, "count", [Tag(ApiKey, Text("PRIVATE")), Tag(VariableNameKey, Text("n"))])
  }

  /** The api value is compared case-insensitively: the comment is private. */
  lemma ShoutedPrivateIsPrivate()
    ensures IsPrivate(ShoutedPrivate())
  {
    assert TagValueOf(ApiKey, ShoutedPrivate().tags) == Some(Text("PRIVATE"));
    assert Lower("PRIVATE") == "private";
  }

  /** Under the defaults the private variable is dropped and the state is untouched. */
  lemma PrivateVariableDropped()
    ensures VariableComment(ShoutedPrivate(), DefaultSettings, None) == Rendered("", None)
  {
    ShoutedPrivateIsPrivate();
    DefaultsDropPrivate(ShoutedPrivate());
  }

  /** Under any settings that show it, the private variable's name carries the private label. */
  lemma PrivateVariableLabelled(s: Settings)
    requires Get(s, "includePrivate") != "false"
    ensures VariableComment(ShoutedPrivate(), s, None).md != ""
    ensures NameLine(ShoutedPrivate(), s, VariableNameKey, "privateVariableLabel") == Plain("n" + Get(s, "privateVariableLabel"))
  {
    ShoutedPrivateIsPrivate();
    assert TagValueOf(VariableNameKey, ShoutedPrivate().tags) == Some(Text("n"));
  }

  /** With two version tags only the first value is rendered. */
  lemma FirstVersionWins()
    ensures var c := Comment(Module, "", [Tag(VersionKey, Text("1.0")), Tag(VersionKey, Text("2.0"))]);
      SimpleTagLine(c, DefaultSettings, SimpleTags[5]) == "*Version:* 1.0\n"
  {
  }

  /** With no module tag and no module name, the heading is the configured default. */
  lemma ModuleFallsBackToDefault()
    ensures ModuleHeadingName(Comment(Module, "", []), "", DefaultSettings) == Plain("Module")
  {
  }
}

=== FILE: sections.dfy ===
/**
 The section renderers that do not walk tags: simple tags, module comments,
 variable comments and type comments. Variable and type renderers read and
 update the group-heading state, which is passed in and returned.
 */
module Sections {
  import opened Strings
  import opened Markdown
  import opened Comments
  import opened Config

  /** A fragment of Markdown together with the group-heading state after producing it. */
  datatype Rendered = Rendered(md: string, state: State)

  /** The label stored under option `labelKey`, styled by the token stored under `styleKey`. */
  function Styled(s: Settings, labelKey: string, styleKey: string): string {
    ApplyMarkdown(Get(s, labelKey), Get(s, styleKey))
  }

  /**
   The line for one simple tag: empty when the tag is absent or its value is
   falsy, otherwise the styled label, a space, the first value and a newline.
   */
  function SimpleTagLine(c: Comment, s: Settings, t: SimpleTag): (r: string)
    ensures r == "" <==> !TruthyOpt(TagValueOf(t.key, c.tags))
    ensures TruthyOpt(TagValueOf(t.key, c.tags)) ==>
              Styled(s, t.labelKey, t.styleKey) + " " <= r
              && IsSuffix(JsString(TagValueOf(t.key, c.tags).value) + "\n", r)
              && |r| == |Styled(s, t.labelKey, t.styleKey)| + 1 + |JsString(TagValueOf(t.key, c.tags).value)| + 1
  {
    var v := TagValueOf(t.key, c.tags);
    if TruthyOpt(v) then
      var head := Styled(s, t.labelKey, t.styleKey) + " ";
      var tail := JsString(v.value) + "\n";
      assert (head + tail)[..|head|] == head;
      assert (head + tail)[|head + tail| - |tail|..] == tail;
      head + tail
    else ""
  }

  /** Truthiness of what the property read found: `Object` is a function, and so truthy. */
  predicate FoundTruthy(o: Option<Found>) {
    o.Some? && (o.value.ObjectFunction? || Truthy(o.value.payload))
  }

  /** A simple tag's line as docit's code computes it, through the lookup that also finds inherited properties. */
  function SimpleTagLineAsWritten(c: Comment, s: Settings, t: SimpleTag): (r: string)
    ensures r == "" <==> !FoundTruthy(LookupAsWritten(t.key, c.tags))
    ensures !Inherited(t.key) ==> r == SimpleTagLine(c, s, t)
  {
    var v := LookupAsWritten(t.key, c.tags);
    if FoundTruthy(v) then Styled(s, t.labelKey, t.styleKey) + " " + FoundString(v.value) + "\n" else ""
  }

  /**
   The discrepancy in the output: as written, every comment whose first tag is
   not a `constructor` tag gets a Constructor line naming JavaScript's `Object`;
   under the intended lookup a comment without `constructor` tags gets none.
   A type comment whose only tag is `class: Foo` is one such comment.
   */
  lemma ConstructorLineAsWritten(c: Comment, s: Settings, t: SimpleTag)
    requires t in SimpleTags && Inherited(t.key)
    requires |c.tags| > 0 && c.tags[0].key != t.key
    ensures SimpleTagLineAsWritten(c, s, t) == Styled(s, t.labelKey, t.styleKey) + " " + FoundString(ObjectFunction) + "\n"
    ensures (forall i :: 0 <= i < |c.tags| ==> c.tags[i].key != t.key) ==> SimpleTagLine(c, s, t) == ""
  {
    assert LookupAsWritten(t.key, c.tags) == Some(ObjectFunction);
  }

  function SimpleTagLines(c: Comment, s: Settings, table: seq<SimpleTag>): string {
    if |table| == 0 then "" else SimpleTagLine(c, s, table[0]) + SimpleTagLines(c, s, table[1..])
  }

  lemma {:induction false} SimpleTagLinesEmpty(c: Comment, s: Settings, table: seq<SimpleTag>)
    ensures SimpleTagLines(c, s, table) == "" <==> forall k :: 0 <= k < |table| ==> SimpleTagLine(c, s, table[k]) == ""
  {
    if |table| > 0 {
      var rest := table[1..];
      SimpleTagLinesEmpty(c, s, rest);
      assert SimpleTagLines(c, s, table) == SimpleTagLine(c, s, table[0]) + SimpleTagLines(c, s, rest);
      forall k | 1 <= k < |table|
        ensures SimpleTagLine(c, s, table[k]) == SimpleTagLine(c, s, rest[k - 1])
      {
        assert table[k] == rest[k - 1];
      }
    }
  }

  lemma SimpleTagLinesSix(c: Comment, s: Settings, t: seq<SimpleTag>)
    requires |t| == 6
    ensures SimpleTagLines(c, s, t) == SimpleTagLine(c, s, t[0]) + (SimpleTagLine(c, s, t[1])
      + (SimpleTagLine(c, s, t[2]) + (SimpleTagLine(c, s, t[3])
      + (SimpleTagLine(c, s, t[4]) + SimpleTagLine(c, s, t[5])))))
  {
    var t1 := t[1..];
    var t2 := t1[1..];
    var t3 := t2[1..];
    var t4 := t3[1..];
    var t5 := t4[1..];
    assert t5[1..] == [];
    assert SimpleTagLines(c, s, t5) == SimpleTagLine(c, s, t[5]);
    assert SimpleTagLines(c, s, t4) == SimpleTagLine(c, s, t[4]) + SimpleTagLines(c, s, t5);
    assert SimpleTagLines(c, s, t3) == SimpleTagLine(c, s, t[3]) + SimpleTagLines(c, s, t4);
    assert SimpleTagLines(c, s, t2) == SimpleTagLine(c, s, t[2]) + SimpleTagLines(c, s, t3);
    assert SimpleTagLines(c, s, t1) == SimpleTagLine(c, s, t[1]) + SimpleTagLines(c, s, t2);
  }

  /** The simple tags' lines, in the fixed table order whatever the order of the comment's tags. */
  function ProcessSimpleTags(c: Comment, s: Settings): (r: string)
    ensures r == SimpleTagLine(c, s, SimpleTags[0]) + (SimpleTagLine(c, s, SimpleTags[1])
      + (SimpleTagLine(c, s, SimpleTags[2]) + (SimpleTagLine(c, s, SimpleTags[3])
      + (SimpleTagLine(c, s, SimpleTags[4]) + SimpleTagLine(c, s, SimpleTags[5])))))
    ensures r == "" <==> forall k :: 0 <= k < |SimpleTags| ==> !TruthyOpt(TagValueOf(SimpleTags[k].key, c.tags))
  {
    var table := SimpleTags;
    assert |table| == 6;
    SimpleTagLinesSix(c, s, table);
    SimpleTagLinesEmpty(c, s, table);
    SimpleTagLines(c, s, table)
  }

  /** Reordering neighbouring tags with different keys leaves the simple-tag lines unchanged. */
  lemma SimpleTagsIgnoreTagOrder(c: Comment, s: Settings, i: nat)
    requires i + 1 < |c.tags| && c.tags[i].key != c.tags[i + 1].key
    ensures ProcessSimpleTags(c.(tags := c.tags[i := c.tags[i + 1]][i + 1 := c.tags[i]]), s) == ProcessSimpleTags(c, s)
  {
    var c' := c.(tags := c.tags[i := c.tags[i + 1]][i + 1 := c.tags[i]]);
    forall k | 0 <= k < |SimpleTags|
      ensures SimpleTagLine(c', s, SimpleTags[k]) == SimpleTagLine(c, s, SimpleTags[k])
    {
      SwapPreservesLookup(SimpleTags[k].key, c.tags, i);
    }
  }

  /** The module heading: the `module` tag if truthy, else the module name if non-empty, else the default heading. */
  function ModuleHeadingName(c: Comment, moduleName: string, s: Settings): (name: Styleable)
    ensures TruthyOpt(TagValueOf(ModuleKey, c.tags)) ==> name == ToStyleable(TagValueOf(ModuleKey, c.tags).value)
    ensures !TruthyOpt(TagValueOf(ModuleKey, c.tags)) && moduleName != "" ==> name == Plain(moduleName)
    ensures !TruthyOpt(TagValueOf(ModuleKey, c.tags)) && moduleName == "" ==> name == Plain(Get(s, "defaultModuleHeading"))
  {
    var m := TagValueOf(ModuleKey, c.tags);
    if TruthyOpt(m) then ToStyleable(m.value)
    else if moduleName != "" then Plain(moduleName)
    else Plain(Get(s, "defaultModuleHeading"))
  }

  /** A module comment: styled heading and blank line, the text paragraph when there is text, then the simple tags. */
  function ModuleComment(c: Comment, s: Settings, moduleName: string): (r: string)
    ensures (StyleValue(ModuleHeadingName(c, moduleName, s), Get(s, "moduleHeadingMarkdown")) + "\n\n") <= r
    ensures r == StyleValue(ModuleHeadingName(c, moduleName, s), Get(s, "moduleHeadingMarkdown")) + "\n\n"
      + ((if c.text != "" then c.text + "\n\n" else "") + ProcessSimpleTags(c, s))
    ensures r != ""
  {
    var heading := StyleValue(ModuleHeadingName(c, moduleName, s), Get(s, "moduleHeadingMarkdown")) + "\n\n";
    var paragraph := if c.text != "" then c.text + "\n\n" else "";
    var r := heading + (paragraph + ProcessSimpleTags(c, s));
    assert r[..|heading|] == heading;
    r
  }

  /** Simple-tag lines depend on the settings only through the table's label and style options. */
  lemma {:induction false} SimpleTagsSettingsAgree(c: Comment, s: Settings, s': Settings, table: seq<SimpleTag>)
    requires forall k :: 0 <= k < |table| ==>
      && Get(s, table[k].labelKey) == Get(s', table[k].labelKey)
      && Get(s, table[k].styleKey) == Get(s', table[k].styleKey)
    ensures SimpleTagLines(c, s, table) == SimpleTagLines(c, s', table)
  {
    if |table| > 0 {
      assert Styled(s, table[0].labelKey, table[0].styleKey) == Styled(s', table[0].labelKey, table[0].styleKey);
      assert forall k :: 1 <= k < |table| ==> table[k] == table[1..][k - 1];
      SimpleTagsSettingsAgree(c, s, s', table[1..]);
    }
  }

  /** The simple-tag block never depends on the privacy setting. */
  lemma SimpleTagsIgnoreIncludePrivate(c: Comment, s: Settings, v: string)
    ensures SimpleTagLines(c, s["includePrivate" := v], SimpleTags) == SimpleTagLines(c, s, SimpleTags)
  {
    var s' := s["includePrivate" := v];
    forall k | 0 <= k < |SimpleTags|
      ensures Get(s, SimpleTags[k].labelKey) == Get(s', SimpleTags[k].labelKey)
      ensures Get(s, SimpleTags[k].styleKey) == Get(s', SimpleTags[k].styleKey)
    {
      assert SimpleTags[k].labelKey != "includePrivate" && SimpleTags[k].styleKey != "includePrivate";
    }
    SimpleTagsSettingsAgree(c, s, s', SimpleTags);
  }

  /** A module comment never depends on the privacy setting. */
  lemma ModuleIgnoresIncludePrivate(c: Comment, s: Settings, moduleName: string, v: string)
    ensures ModuleComment(c, s["includePrivate" := v], moduleName) == ModuleComment(c, s, moduleName)
  {
    var s' := s["includePrivate" := v];
    SimpleTagsIgnoreIncludePrivate(c, s, v);
    assert ProcessSimpleTags(c, s') == ProcessSimpleTags(c, s);
    assert Get(s', "moduleHeadingMarkdown") == Get(s, "moduleHeadingMarkdown");
    assert Get(s', "defaultModuleHeading") == Get(s, "defaultModuleHeading");
  }

  /** The group heading printed before a variable or type comment: only when the state is not already `kind`. */
  function GroupHeading(s: Settings, st: State, kind: CommentType, headingKey: string, styleKey: string): (r: string)
    ensures st == Some(kind) ==> r == ""
    ensures st != Some(kind) ==> r == Styled(s, headingKey, styleKey) + "\n"
  {
    if st != Some(kind) then Styled(s, headingKey, styleKey) + "\n" else ""
  }

  /**
   The name of a variable or type as handed to `applyMarkdown`: the tag's value
   ("null" when absent), turned into a string with the private label appended
   when the comment is private.
   */
  function NameLine(c: Comment, s: Settings, key: string, privateLabelKey: string): (line: Styleable)
    ensures IsPrivate(c) ==> line == Plain(OrNull(TagValueOf(key, c.tags)) + Get(s, privateLabelKey))
    ensures line.Plain? ==> OrNull(TagValueOf(key, c.tags)) <= line.s
    ensures !IsPrivate(c) && line.Plain? ==> line.s == OrNull(TagValueOf(key, c.tags))
    ensures line.Structured? <==> !IsPrivate(c) && TagValueOf(key, c.tags).Some? && !TagValueOf(key, c.tags).value.Text?
  {
    var found := TagValueOf(key, c.tags);
    if IsPrivate(c) then
      var line := OrNull(found) + Get(s, privateLabelKey);
      assert line[..|OrNull(found)|] == OrNull(found);
      Plain(line)
    else if found.Some? then ToStyleable(found.value)
    else Plain("null")
  }

  /** A variable comment: suppressed entirely, or the group heading when the state is not Variable, then the name and text. */
  function VariableComment(c: Comment, s: Settings, st: State): (r: Rendered)
    ensures Suppressed(c, s) ==> r == Rendered("", st)
    ensures !Suppressed(c, s) ==> r.state == Some(Variable)
    ensures !Suppressed(c, s) ==>
              GroupHeading(s, st, Variable, "variablesHeading", "variablesHeadingMarkdown") <= r.md
    ensures !Suppressed(c, s) ==>
              r.md == GroupHeading(s, st, Variable, "variablesHeading", "variablesHeadingMarkdown")
                      + ("\n" + (StyleValue(NameLine(c, s, VariableNameKey, "privateVariableLabel"), Get(s, "variableNameMarkdown"))
                      + ("\n\n" + (c.text + "\n"))))
    ensures r.md != "" <==> !Suppressed(c, s)
  {
    if Suppressed(c, s) then Rendered("", st)
    else
      var heading := GroupHeading(s, st, Variable, "variablesHeading", "variablesHeadingMarkdown");
      var name := StyleValue(NameLine(c, s, VariableNameKey, "privateVariableLabel"), Get(s, "variableNameMarkdown"));
      var md := heading + ("\n" + (name + ("\n\n" + (c.text + "\n"))));
      assert md[..|heading|] == heading;
      Rendered(md, Some(Variable))
  }

  /** A type comment: suppressed entirely, or the group heading when the state is not Type, then name, simple tags and text. */
  function TypeComment(c: Comment, s: Settings, st: State): (r: Rendered)
    ensures Suppressed(c, s) ==> r == Rendered("", st)
    ensures !Suppressed(c, s) ==> r.state == Some(Type)
    ensures !Suppressed(c, s) ==>
              GroupHeading(s, st, Type, "typesHeading", "typesHeadingMarkdown") <= r.md
    ensures !Suppressed(c, s) ==>
              r.md == GroupHeading(s, st, Type, "typesHeading", "typesHeadingMarkdown")
                      + ("\n" + (StyleValue(NameLine(c, s, ClassKey, "privateTypeLabel"), Get(s, "typeNameMarkdown"))
                      + ("\n" + (ProcessSimpleTags(c, s) + ("\n" + (c.text + "\n"))))))
    ensures r.md != "" <==> !Suppressed(c, s)
  {
    if Suppressed(c, s) then Rendered("", st)
    else
      var heading := GroupHeading(s, st, Type, "typesHeading", "typesHeadingMarkdown");
      var name := StyleValue(NameLine(c, s, ClassKey, "privateTypeLabel"), Get(s, "typeNameMarkdown"));
      var md := heading + ("\n" + (name + ("\n" + (ProcessSimpleTags(c, s) + ("\n" + (c.text + "\n"))))));
      assert md[..|heading|] == heading;
      Rendered(md, Some(Type))
  }
}

=== FILE: strings.dfy ===
/**
 String helpers shared by the renderers: repetition (docit's `charConcat`),
 JavaScript's UTF-16 string length, ASCII lower-casing, and sequence
 concatenation.
 */
module Strings {

  /**
   `c` concatenated `count` times, appending one copy per step as `charConcat`'s
   loop does; `charConcat` is only ever handed a one-character token.
   */
  function Repeat(c: char, count: nat): (r: string)
    ensures |r| == count
    ensures forall i :: 0 <= i < |r| ==> r[i] == c
  {
    if count == 0 then "" else Repeat(c, count - 1) + [c]
  }

  /** How many UTF-16 code units JavaScript spends on one character: two above the Basic Multilingual Plane. */
  function Utf16Units(ch: char): nat {
    if ch as int >= 0x1_0000 then 2 else 1
  }

  /** JavaScript's `length` of a string: its UTF-16 code units, so at least one per character. */
  function Utf16Length(s: string): (n: nat)
    ensures n >= |s|
    ensures (forall i :: 0 <= i < |s| ==> s[i] as int < 0x1_0000) ==> n == |s|
  {
    if |s| == 0 then 0 else Utf16Length(s[..|s| - 1]) + Utf16Units(s[|s| - 1])
  }

  /** Cutting characters off the end removes at least one code unit per character. */
  lemma {:induction false} Utf16LengthPrefix(s: string, k: nat)
    requires k <= |s|
    ensures Utf16Length(s[..k]) + (|s| - k) <= Utf16Length(s)
    decreases |s| - k
  {
    if k < |s| {
      var t := s[..|s| - 1];
      assert t[..k] == s[..k];
      Utf16LengthPrefix(t, k);
    } else {
      assert s[..k] == s;
    }
  }

  /** ASCII lower-casing of a single character. */
  function LowerChar(ch: char): char {
    if 'A' <= ch <= 'Z' then (ch as int - 'A' as int + 'a' as int) as char else ch
  }

  /** ASCII lower-casing of a string, character by character. */
  function Lower(s: string): (r: string)
    ensures |r| == |s|
    ensures forall i :: 0 <= i < |s| ==> r[i] == LowerChar(s[i])
  {
    if |s| == 0 then "" else [LowerChar(s[0])] + Lower(s[1..])
  }

  /** Concatenation of a sequence of strings, in order. */
  function Concat(parts: seq<string>): string {
    if |parts| == 0 then "" else parts[0] + Concat(parts[1..])
  }

  /** Regrouping a three-part concatenation; stated once so proofs can cite it instead of re-deriving it. */
  lemma AppendAssoc(x: string, y: string, z: string)
    ensures (x + y) + z == x + (y + z)
  {
  }

  predicate IsSuffix(p: string, s: string) {
    |p| <= |s| && s[|s| - |p|..] == p
  }

  lemma SuffixOfAppend(p: string, x: string, y: string)
    requires IsSuffix(p, y)
    ensures IsSuffix(p, x + y)
  {
    assert (x + y)[|x + y| - |p|..] == y[|y| - |p|..];
  }
}
